=== FILE: README.md ===
# Chat turn, file-format dispatch and UI decisions — a Dafny model

This project models the logic core of a document-aware chat application
(Next.js, TypeScript):

- **The chat turn** (`POST` of `app/api/chat/route.ts`). It checks the
  session, reuses the conversation id it was given or creates a conversation
  titled with the first 50 characters of the message, writes the user
  message, asks the generation model for a reply, writes the assistant
  message, and answers `{conversationId, response}`. Any failure after the
  guard becomes a 500 and nothing already written is undone. The turn is the
  pure function `ChatRoute.Post` from the store it starts on to the store it
  leaves behind. An `Oracle` fixes the outcome of every awaited call: the new
  conversation's database id, each of the three writes, and generation as
  text or failure. A trace of events records the order of side effects.
- **The format dispatcher** (`parseFile` of `lib/fileParser.ts`). An exact
  match on the PDF or DOCX media type, or the `image/` prefix, picks one
  extraction library. Every other type, and every exception, gives
  `{text: "", pages: null}`. The libraries (pdf-parse, mammoth, sharp) are
  abstract functions from the buffer to a value or "threw".
- **Decisions inside UI components.**
  - `FileCard`: the icon, the size unit with its `toFixed(1)` rounding, the
    type label, and the pages line.
  - `FolderTree`: the rename guard, the root-folder filter, the drag-and-drop
    reorder (`findIndex` and `arrayMove`), and the row indentation.
  - `ChatInterface`: the submit guard, the one-time adoption of the returned
    conversation id, the empty message list, and the export guard.
- **Client and server together.** Lemmas chain the client decisions with
  successive server turns.

Strings are `seq<char>`, one `char` per Unicode scalar value. JavaScript
strings count UTF-16 code units instead; the two agree for text inside the
Basic Multilingual Plane (see `ChatRoute.Title` under "## Left out"). JavaScript
truthiness of an optional string (`undefined`, `null`, `""` are falsy) is
`Wrappers.Truthy`.

Behaviour of the route worth knowing:

- Empty content gives an empty title.
- The user message is written before generation. A failed generation, or a
  failed assistant write, leaves the user message without a reply, and a
  conversation created in that turn stays.
- The route does not check that the conversation belongs to the signed-in
  user (`ChatRoute.ForeignConversationAccepted`).
- The route reads only `content` and `conversationId` from the body and sends
  `content` alone to the generation model.

The persistence layer is assumed to refuse a message whose conversation does
not exist (a foreign key). The database schema is not part of this model.

Files: `wrappers.dfy` (Option, truthiness), `strings.dfy` (trim, startsWith,
split, upper case, decimal rendering), `file_parser.dfy`, `chat_route.dfy`,
`file_card.dfy`, `folder_tree.dfy`, `chat_interface.dfy`.

## Model

| member | source | states |
|---|---|---|
| FileParser.FormatOf | lib/fileParser.ts:7-28 | exact, case-sensitive match selects PDF and DOCX, the `image/` prefix selects images, everything else is unsupported; each is an if-and-only-if and the four cases are exclusive |
| FileParser.ParseFile | lib/fileParser.ts:5-41 | never throws: an unsupported type or a throw from the chosen library gives `{text: "", pages: null}`; a page count appears only for a PDF or an image whose library returned; a returned image always counts one page and its text begins `Image file: ` |
| FileParser.ShowDimension | lib/fileParser.ts:25 | a missing dimension renders as `undefined`; a present one renders as its canonical decimal: digits, no leading zero, `0` for zero, reading back as the same number |
| FileParser.PdfYieldsTextAndPageCount | lib/fileParser.ts:7-12 | `application/pdf` yields the PDF text and `pages` equal to its page count |
| FileParser.DocxYieldsTextWithoutPages | lib/fileParser.ts:13-21 | the word-processing type yields the raw text and `pages = null` |
| FileParser.ImageYieldsDimensionsAndOnePage | lib/fileParser.ts:22-27 | any `image/` type yields `Image file: {w}x{h}` and `pages = 1` |
| FileParser.EmptyResultIff | lib/fileParser.ts:30-40 | the result is empty exactly when the type is unsupported, the chosen library threw, or DOCX text was empty; no exception escapes |
| FileParser.ParseFileReadsOnlyChosenParser | lib/fileParser.ts:7-28 | the result depends only on the one library the branch order picks; no other library is consulted |
| FileParser.NearMissesAreUnsupported | lib/fileParser.ts:7-22 | `application/pdf; x`, `IMAGE/PNG` and `image` fall to the default; `image/png` is an image |
| FileParser.ImageTextInjective | lib/fileParser.ts:25 | the image description determines both dimensions |
| ChatRoute.Post | app/api/chat/route.ts:7-55 | 401 if and only if there is no user id, and then nothing is written; nothing is rolled back; at most one conversation is created, with the session user, the 50-character title and type `chat`, and none when a truthy id is given; success if and only if every call succeeds, and then exactly the user message and then the assistant message are appended to the target conversation and the response carries its id and the reply; a failure after the guard gives 500 and keeps what was written before it: the conversation created this turn stays, and once the user message is stored it stays as the only new message; a failed generation adds only user messages; generation is called exactly when the user message is stored, at most once, and right after that write; the trace is the optional conversation creation, then nothing, or the user message and generation, or those and then the assistant message |
| ChatRoute.Title | app/api/chat/route.ts:22 | the title has at most 50 characters, is a prefix of the content, and is the whole content when it is short; no fallback for empty content |
| ChatRoute.Resolve | app/api/chat/route.ts:16-27 | a truthy id is kept and the store is unchanged; otherwise one conversation is appended, or the turn fails when the create fails |
| ChatRoute.CreateMessage | app/api/chat/route.ts:29-35 | a message write succeeds exactly when the database commits and the conversation exists, and then appends only that message |
| ChatRoute.Record | app/api/chat/route.ts:29-47 | the user message, one generation call, the assistant message: success exactly when all three succeed; conversations untouched; a failed user-message write leaves the store and trace as they were; a later failure leaves exactly the user message added and a trace ending in the generation call; only the three trace shapes are possible |
| ChatRoute.GrowingConversationsKeepIntegrity | app/api/chat/route.ts:16-27 | creating a conversation, and no message, keeps every message attached |
| ChatRoute.RecordKeepsIntegrity | app/api/chat/route.ts:29-45 | the messages a turn writes all go to a conversation that exists |
| ChatRoute.PostPreservesIntegrity | app/api/chat/route.ts:16-45 | a turn keeps every message attached to an existing conversation |
| ChatRoute.NewConversationTurn | app/api/chat/route.ts:16-47 | a successful turn without an id adds exactly one conversation and the message pair |
| ChatRoute.FollowUpTurn | app/api/chat/route.ts:16-47 | a successful turn with an existing id adds no conversation and exactly the message pair |
| ChatRoute.ForeignConversationAccepted | app/api/chat/route.ts:14-37 | a user can write into a conversation owned by another user |
| ChatRoute.FailedNewConversationTurn | app/api/chat/route.ts:18-53 | a first turn whose generation fails answers 500 and leaves exactly the new conversation and the user message |
| ChatRoute.RetryAfterGenerationFailure | app/api/chat/route.ts:29-53 | after a failed generation, a retry with the new id reuses it; the orphaned user message stays before the new pair |
| FileCard.IconFor | components/folders/FileCard.tsx:21-25 | `image/` prefix gives the blue image icon, checked before the exact PDF type which gives the red icon; every other type gives the grey icon |
| FileCard.IconAgreesWithParser | components/folders/FileCard.tsx:21-25 | the icon follows the parser's branch: image for images, red for PDF, grey for DOCX and unsupported types |
| FileCard.UnitFor | components/folders/FileCard.tsx:27-31 | B below 1024, KB from 1024 below 1048576, MB from 1048576: disjoint and covering |
| FileCard.Tenths | components/folders/FileCard.tsx:29-30 | the tenths `toFixed(1)` writes are the nearest to the true quotient, the larger on a tie |
| FileCard.FormatFileSize | components/folders/FileCard.tsx:27-31 | below 1024 the text is the integer's canonical decimal (no leading zero, `0 B` for an empty file) followed by ` B`, and the number reads back unchanged; from 1024 it is the one-decimal quotient by 1024 or 1048576 with ` KB` or ` MB`, within half a tenth of the true value |
| FileCard.UnitMonotone | components/folders/FileCard.tsx:27-31 | the unit never goes down as the size grows |
| FileCard.TypeLabel | components/folders/FileCard.tsx:111 | the label exists exactly when the type holds a `/`, has no `/` and no lower-case ASCII letter; without a `/` rendering throws |
| FileCard.TypeLabelOfMediaType | components/folders/FileCard.tsx:111 | for `top/sub` the label is `sub` upper-cased |
| FileCard.PdfLabel | components/folders/FileCard.tsx:111 | the PDF type is labelled `PDF` |
| FileCard.PagesSlotAsWritten | components/folders/FileCard.tsx:110 | the pages line appears exactly for a non-zero page count and carries that count; null renders nothing; a zero count renders a bare `0` |
| FileCard.ZeroPagesShowsStrayZero | components/folders/FileCard.tsx:110 | a page count of 0 puts the text `0` on the card |
| FileCard.PagesSlotFor | components/folders/FileCard.tsx:110 | the pages line, with the count, exactly when `pages` is truthy, and nothing otherwise |
| FileCard.PagesSlotDiffersOnlyAtZero | components/folders/FileCard.tsx:110 | the as-written and intended slots differ only for a zero page count |
| FileCard.Card | components/folders/FileCard.tsx:106-112 | the card as rendered: the icon `getFileIcon` picks, the image icon exactly for `image/` types; the size text `formatFileSize` writes; the pages slot as line 110 writes it, so a zero count shows a stray `0`; the type label, which is None exactly when the type has no `/`: rendering throws there |
| FileCard.IntendedCard | components/folders/FileCard.tsx:106-112 | the card with the intended pages slot: never stray text, and the pages line exactly for a truthy count |
| FileCard.CardDiffersOnlyAtZeroPages | components/folders/FileCard.tsx:110 | the rendered and intended cards differ exactly for a file stored with a page count of 0 |
| FileCard.ParsedImageCardShowsOnePage | components/folders/FileCard.tsx:108-111 | a successfully parsed image is stored with one page and its card shows `Pages: 1` with the image icon |
| FolderTree.HandleRename | components/folders/FolderTree.tsx:76-82 | a rename is sent if and only if the name is not blank after trimming and differs from the current name; the name sent is the untrimmed input |
| FolderTree.RenameKeepsSurroundingSpaces | components/folders/FolderTree.tsx:76-81 | ` Notes ` is sent as typed; a blank or unchanged name only ends editing |
| FolderTree.RootFolders | components/folders/FolderTree.tsx:221 | a folder is kept exactly when it is in the input and its `parentId` is falsy |
| FolderTree.RootFoldersAppend | components/folders/FolderTree.tsx:221 | the filter distributes over concatenation, so it keeps input order |
| FolderTree.RootFoldersOfRoots | components/folders/FolderTree.tsx:221 | a list of roots passes through unchanged |
| FolderTree.RootFoldersIdempotent | components/folders/FolderTree.tsx:221 | filtering twice equals filtering once |
| FolderTree.FindIndex | components/folders/FolderTree.tsx:202-203 | the first index whose id matches, or -1 exactly when none does |
| FolderTree.ArrayMove | components/folders/FolderTree.tsx:205 | a permutation of the list with the moved item at the target index; items outside the moved span stay, items inside shift by one |
| FolderTree.ArrayMoveInverse | components/folders/FolderTree.tsx:205 | moving back from the target to the source restores the list |
| FolderTree.ArrayMoveKeepsUniqueIds | components/folders/FolderTree.tsx:205 | a move keeps ids unique |
| FolderTree.HandleDragEnd | components/folders/FolderTree.tsx:198-219 | no drop target throws; a drop on itself changes nothing and sends nothing; otherwise both indices come from `findIndex` over the full item list, the new list is the move, the moved folder sits at the new index, and the request is `{folderId: active.id, newOrder: newIndex}` |
| FolderTree.DragBackRestores | components/folders/FolderTree.tsx:198-219 | with unique ids, dragging the folder back onto the one now at its old place restores the list |
| FolderTree.NodeRows | components/folders/FolderTree.tsx:84-176 | a folder's first row is its own at `level*16 + 8` pixels; every row below it is at least one 16-pixel step further right and on the 16-pixel grid |
| FolderTree.ForestRows | components/folders/FolderTree.tsx:166-174 | a list of siblings renders nothing exactly when it is empty; otherwise it starts with the first sibling's row; every sibling has a row at the level's indent; no row is left of that indent or off the 16-pixel grid |
| FolderTree.TreeRows | components/folders/FolderTree.tsx:221-238 | no rows exactly when there is no root folder; otherwise the first row is the first root folder; every root folder of the input has a row at level 0 (8 pixels); no row is left of that |
| FolderTree.AllExpandedRowsCount | components/folders/FolderTree.tsx:166-174 | with everything expanded, each folder of the subtree gets exactly one row |
| FolderTree.ForestExpandedRowsCount | components/folders/FolderTree.tsx:166-174 | the same, for a list of siblings |
| FolderTree.CollapsedIsOneRow | components/folders/FolderTree.tsx:92-100 | a collapsed folder renders only its own row, with a right chevron when it has children |
| FolderTree.ChildIndentedOneStep | components/folders/FolderTree.tsx:84-176 | an expanded folder's first child row follows it, 16 pixels further right |
| ChatInterface.HandleSubmit | components/chat/ChatInterface.tsx:59-64 | a send happens if and only if the input is not blank and no send is pending; the input is sent verbatim and cleared to `""`; otherwise nothing changes |
| ChatInterface.SubmitClearsInput | components/chat/ChatInterface.tsx:61-63 | right after a send, a second submit sends nothing |
| ChatInterface.OnSuccess | components/chat/ChatInterface.tsx:45-52 | the returned id is adopted, with navigation, only when there is no current id; an existing id is kept and its messages refreshed |
| ChatInterface.AfterResponse | components/chat/ChatInterface.tsx:42-49 | a response that is not a 2xx throws before `onSuccess`, so the id is unchanged; an answered turn is adopted only when there is no current id |
| ChatInterface.AdoptionIsSticky | components/chat/ChatInterface.tsx:45-49 | after one adoption, later successes never change the id or navigate |
| ChatInterface.Messages | components/chat/ChatInterface.tsx:24-33 | with no current id the list is `[]` and no fetch is issued; otherwise the fetched list, or `[]` on failure |
| ChatInterface.HandleExport | components/chat/ChatInterface.tsx:66-70 | export happens exactly when there are messages, titled `Chat Conversation`, named after the conversation id or else the clock |
| ChatInterface.NoConversationNoExport | components/chat/ChatInterface.tsx:24-33 | without a conversation nothing is listed, so nothing is exported |
| ChatInterface.FirstTurnThenFollowUp | components/chat/ChatInterface.tsx:35-53 | a first message, posted with no id, creates one conversation; the client adopts the id from the answered response; the follow-up goes to it, creating none, and the store holds both pairs in order |
| ChatInterface.FailedFirstTurnOrphansConversation | components/chat/ChatInterface.tsx:35-53 | when the first generation fails the 500 keeps `onSuccess` from running, so the client keeps no id and its resend creates a second conversation; the first keeps a lone user message |
| Strings.TrimEmptyIffBlank | components/chat/ChatInterface.tsx:61 | `trim()` is empty exactly when the string is all whitespace |
| Strings.ParseDecimalOfDecimal | components/folders/FileCard.tsx:28 | the decimal rendering of a number reads back as that number |
| Strings.SecondFieldOfJoin | components/folders/FileCard.tsx:111 | `split("/")[1]` of `a/b` is `b` when neither part holds a `/` |

## Left out

- lib/gemini.ts: generation is an oracle giving text or a failure. Its error re-wrapping, logging and streaming are not modelled.
- lib/supabase.ts, components/folders/FileUpload.tsx and the download route: storage and upload transport are network I/O through client libraries that are not part of this model.
- The session lookup (`getServerSession`) is an input. A throw from the lookup itself, which the route would also answer with 500, is not modelled.
- `ChatRoute.Post` takes the body's `content` as a string and its `conversationId` as an optional string. Any other JSON value is not modelled: a non-string `content`, for which `slice` or the database write would throw, and a falsy non-string id such as `0` or `false`, which `!convId` treats like a missing id and so creates a new conversation. A body that fails to parse is modelled (None gives 500).
- Logging (`console.error`) in the route and the parser is not modelled.
- The database schema is not part of this model. The foreign-key refusal in `ChatRoute.CreateMessage` is an assumption about it.
- Attachment ingestion, per-file truncation, prompt composition and multi-modal dispatch do not appear in the route, so they are not modelled.
- Concurrency between requests is not modelled. Each turn is one sequential pass over the store.
- FileCard.TypeLabel: upper-cases ASCII letters only, because `toUpperCase`'s full Unicode case mapping is outside the model.
- FileCard.FormatFileSize: exact only for sizes below 2^53. Above that the double quotient is no longer exact. Negative and fractional sizes are not modelled either (sizes are `nat`).
- ChatRoute.Title: takes the first 50 Unicode scalar values, while `slice(0, 50)` takes 50 UTF-16 code units. For content with characters outside the Basic Multilingual Plane (emoji, say) the real title is shorter and can end in half a surrogate pair; Dafny's `char` cannot hold a lone surrogate.
- Strings.Decimal: numbers of 10^21 and above, which JavaScript writes in exponent form, are not modelled.
- FolderTree.HandleDragEnd: an id missing from `items` gives `UnknownId`. The code does not guard this case, and what `arrayMove` does with index -1 is not modelled.
- The item list is the `items` state, which `useState(folders)` initialises once. Its later drift from `folders` is not modelled; `items` is simply a parameter.
- Each folder row's expand/collapse state is a set of collapsed folder ids.
- The `isPending` flag of React Query is an input to `ChatInterface.HandleSubmit`. Its transitions are not modelled.
- React Query caching and invalidation, router navigation beyond the target path, PDF generation, and the delete, download, summarize and quiz handlers of FileCard and FolderTree are fetch or rendering code and are not modelled.

## Findings

| source | as written | input that shows it | evidently intended | confidence | as-written member | corrected member |
|---|---|---|---|---|---|---|
| components/folders/FileCard.tsx:110 | `{file.pages && <p>…</p>}` yields the number 0 when `pages` is 0, and React renders 0 as text | a file stored with `pages = 0` | no pages line and no stray text for a falsy page count | low, not executed | FileCard.Card | FileCard.IntendedCard |

=== FILE: chat_interface.dfy ===
/** The decisions inside components/chat/ChatInterface.tsx: the submit guard,
    the one-time adoption of the conversation id the server returns, the
    message list with no conversation, and the export guard; and how these
    client decisions chain with the chat route over successive turns. The JSX,
    React Query's caching and the router are not modelled. */
module ChatInterface {
  import opened Wrappers
  import opened Strings
  import ChatRoute

  /** A message as the client lists it. */
  datatype ChatMessage = ChatMessage(id: string, role: string, content: string)

  // ---------------------------------------------------------------------------
  // submit
  // ---------------------------------------------------------------------------

  /** The input box and whether a send is still pending. */
  datatype Composer = Composer(input: string, pending: bool)

  /** The composer after a submit, and the text sent, if any. */
  datatype SubmitOutcome = SubmitOutcome(composer: Composer, sent: Option<string>)

  /** `handleSubmit`: nothing happens for a blank input or while a send is
      pending; otherwise the input is sent as typed and the box is cleared. */
  function HandleSubmit(c: Composer): (o: SubmitOutcome)
    ensures o.sent.Some? <==> !Blank(c.input) && !c.pending
    ensures o.sent.Some? ==> o.sent.value == c.input && o.composer == Composer("", c.pending)
    ensures o.sent.None? ==> o.composer == c
  {
    TrimEmptyIffBlank(c.input);
    if Trim(c.input) == [] || c.pending then SubmitOutcome(c, None)
    else SubmitOutcome(Composer("", c.pending), Some(c.input))
  }

  /** A cleared composer accepts no second submit until the user types again. */
  lemma SubmitClearsInput(c: Composer)
    requires HandleSubmit(c).sent.Some?
    ensures HandleSubmit(HandleSubmit(c).composer).sent.None?
  {
    var next := HandleSubmit(c).composer;
    assert Blank(next.input);
  }

  // ---------------------------------------------------------------------------
  // adopting the conversation id
  // ---------------------------------------------------------------------------

  /** What `onSuccess` does: the conversation id afterwards, where the router
      navigates (if anywhere), and the conversation whose messages are refetched. */
  datatype SuccessEffects = SuccessEffects(current: Option<string>, navigateTo: Option<string>, refreshed: string)

  function ChatPath(id: string): string {
    "/chat/" + id
  }

  /** `onSuccess(data)`: the returned id is adopted only when there is no
      current one; an existing id is never replaced. */
  function OnSuccess(current: Option<string>, returned: string): (e: SuccessEffects)
    ensures Truthy(current) ==> e.current == current && e.navigateTo.None? && e.refreshed == current.value
    ensures !Truthy(current) ==>
      e.current == Some(returned) && e.navigateTo == Some(ChatPath(returned)) && e.refreshed == returned
  {
    if !Truthy(current) then
      SuccessEffects(Some(returned), Some(ChatPath(returned)), OrElse(current, returned))
    else
      SuccessEffects(current, None, OrElse(current, returned))
  }

  /** The client's conversation id after `sendMessage` settles: a non-2xx
      response throws before `onSuccess` (line 42 of the component), so only an
      answered turn can be adopted. */
  function AfterResponse(current: Option<string>, r: ChatRoute.Response): (next: Option<string>)
    ensures !r.Answered? ==> next == current
    ensures Truthy(current) ==> next == current
    ensures r.Answered? && !Truthy(current) ==> next == Some(r.conversationId)
  {
    if r.Answered? then OnSuccess(current, r.conversationId).current else current
  }

  /** Adoption happens once: after adopting a non-empty id, later successes
      keep it whatever they return, and never navigate again. */
  lemma AdoptionIsSticky(current: Option<string>, first: string, later: string)
    requires first != ""
    ensures var e1 := OnSuccess(current, first);
      var e2 := OnSuccess(e1.current, later);
      e2.current == e1.current && e2.navigateTo.None?
  {
  }

  // ---------------------------------------------------------------------------
  // message list and export
  // ---------------------------------------------------------------------------

  /** The messages shown, and whether a fetch was issued. */
  datatype MessageList = MessageList(messages: seq<ChatMessage>, fetched: bool)

  /** The `useQuery` for messages: disabled without a conversation id, and its
      data defaulting to `[]`. `response` is what a fetch would return (None if
      it failed). */
  function Messages(current: Option<string>, response: Option<seq<ChatMessage>>): (l: MessageList)
    ensures !Truthy(current) ==> l.messages == [] && !l.fetched
    ensures Truthy(current) ==> l.fetched && l.messages == response.GetOr([])
  {
    if Truthy(current) then MessageList(response.GetOr([]), true) else MessageList([], false)
  }

  /** The arguments of `exportConversationToPDF` and `downloadPDF`. */
  datatype ExportRequest = ExportRequest(title: string, messages: seq<ChatMessage>, fileName: string)

  /** `handleExportPDF`; `now` stands for `Date.now()`. */
  function HandleExport(messages: seq<ChatMessage>, current: Option<string>, now: nat): (r: Option<ExportRequest>)
    ensures r.None? <==> |messages| == 0
    ensures r.Some? ==> r.value.title == "Chat Conversation" && r.value.messages == messages
    ensures r.Some? && Truthy(current) ==> r.value.fileName == "conversation-" + current.value + ".pdf"
    ensures r.Some? && !Truthy(current) ==> r.value.fileName == "conversation-" + Decimal(now) + ".pdf"
  {
    if |messages| == 0 then None
    else Some(ExportRequest("Chat Conversation", messages, "conversation-" + OrElse(current, Decimal(now)) + ".pdf"))
  }

  /** With no conversation there is nothing to list, and so nothing to export. */
  lemma NoConversationNoExport(current: Option<string>, response: Option<seq<ChatMessage>>, now: nat)
    requires !Truthy(current)
    ensures HandleExport(Messages(current, response).messages, current, now).None?
  {
  }

  // ---------------------------------------------------------------------------
  // client and route together
  // ---------------------------------------------------------------------------

  /** A first message with no conversation creates one; the client adopts its
      id, so the next message goes to the same conversation and creates none.
      Each request body is `{content, conversationId: currentConvId}`; an
      undefined id is dropped by `JSON.stringify`, so the route sees None. */
  lemma FirstTurnThenFollowUp(store: ChatRoute.Store, user: string, first: string, second: string,
                              o1: ChatRoute.Oracle, o2: ChatRoute.Oracle)
    requires user != "" && o1.newConversationId != ""
    requires o1.conversationWrite == ChatRoute.Committed
    requires o1.userMessageWrite == ChatRoute.Committed && o1.assistantMessageWrite == ChatRoute.Committed
    requires o2.userMessageWrite == ChatRoute.Committed && o2.assistantMessageWrite == ChatRoute.Committed
    requires o1.generation.Generated? && o2.generation.Generated?
    ensures var t1 := ChatRoute.Post(store, Some(user), Some(ChatRoute.ChatBody(first, None)), o1);
      var cid := o1.newConversationId;
      var adopted := AfterResponse(None, t1.response);
      var t2 := ChatRoute.Post(t1.store, Some(user), Some(ChatRoute.ChatBody(second, adopted)), o2);
      && t1.response == ChatRoute.Answered(cid, o1.generation.text)
      && adopted == Some(cid)
      && t2.response == ChatRoute.Answered(cid, o2.generation.text)
      && |t1.store.conversations| == |store.conversations| + 1
      && t2.store.conversations == t1.store.conversations
      && t2.store.messages == store.messages + [
           ChatRoute.Message(cid, ChatRoute.User, first), ChatRoute.Message(cid, ChatRoute.Assistant, o1.generation.text),
           ChatRoute.Message(cid, ChatRoute.User, second), ChatRoute.Message(cid, ChatRoute.Assistant, o2.generation.text)]
  {
    var cid := o1.newConversationId;
    ChatRoute.NewConversationTurn(store, user, first, o1);
    var t1 := ChatRoute.Post(store, Some(user), Some(ChatRoute.ChatBody(first, None)), o1);
    var s1 := ChatRoute.Store(store.conversations + [ChatRoute.Conversation(cid, user, ChatRoute.Title(first), ChatRoute.ChatKind)],
                              store.messages + [ChatRoute.Message(cid, ChatRoute.User, first),
                                                ChatRoute.Message(cid, ChatRoute.Assistant, o1.generation.text)]);
    assert t1.store == s1;
    assert AfterResponse(None, t1.response) == Some(cid);
    assert ChatRoute.HasConversation(s1, cid) by {
      assert s1.conversations[|store.conversations|].id == cid;
    }
    ChatRoute.FollowUpTurn(s1, user, second, cid, o2);
  }

  /** When generation fails on the first message the response is a 500, so
      `onSuccess` never runs and the client keeps no conversation id; resending
      then creates a second conversation, and the first keeps its user message
      with no reply. */
  lemma FailedFirstTurnOrphansConversation(store: ChatRoute.Store, user: string, text: string,
                                           o1: ChatRoute.Oracle, o2: ChatRoute.Oracle)
    requires user != ""
    requires o1.conversationWrite == ChatRoute.Committed && o1.userMessageWrite == ChatRoute.Committed
    requires o1.generation == ChatRoute.GenerationFailed
    requires o2.conversationWrite == ChatRoute.Committed
    ensures var t1 := ChatRoute.Post(store, Some(user), Some(ChatRoute.ChatBody(text, None)), o1);
      var kept := AfterResponse(None, t1.response);
      var t2 := ChatRoute.Post(t1.store, Some(user), Some(ChatRoute.ChatBody(text, kept)), o2);
      && ChatRoute.StatusCode(t1.response) == 500
      && kept == None
      && t1.store.messages == store.messages + [ChatRoute.Message(o1.newConversationId, ChatRoute.User, text)]
      && |t2.store.conversations| == |store.conversations| + 2
      && t2.store.conversations[|store.conversations|].id == o1.newConversationId
      && t2.store.conversations[|store.conversations| + 1].id == o2.newConversationId
  {
    var t1 := ChatRoute.Post(store, Some(user), Some(ChatRoute.ChatBody(text, None)), o1);
    assert t1.response == ChatRoute.ServerError;
    assert AfterResponse(None, t1.response) == None;
    assert t1.store.conversations[|store.conversations|].id == o1.newConversationId;
    assert ChatRoute.HasConversation(t1.store, o1.newConversationId);
    assert |t1.store.conversations| == |store.conversations| + 1;
    var t2 := ChatRoute.Post(t1.store, Some(user), Some(ChatRoute.ChatBody(text, None)), o2);
    assert t2.store.conversations[..|t1.store.conversations|] == t1.store.conversations;
    assert |t2.store.conversations| == |t1.store.conversations| + 1 by {
      assert ChatRoute.Resolve(t1.store, user, ChatRoute.ChatBody(text, None), o2).Some?;
    }
  }
}

=== FILE: chat_route.dfy ===
/** The chat turn `POST` of app/api/chat/route.ts: authorisation guard,
    conversation reuse or creation, the user message, one generation call, the
    assistant message, and the JSON response. Every failure after the guard is
    caught and answered with status 500; nothing written before it is undone.

    The session lookup, the request body, the persistence layer and the
    generation model are outside the code: the session's user id and the parsed
    body are inputs, and an `Oracle` fixes the outcome of each awaited write and
    of the generation call. A turn is a pure function from the store it starts
    on to the store it leaves behind. */
module ChatRoute {
  import opened Wrappers
  import opened Strings

  /** `content.slice(0, 50)` */
  const TitleLimit: nat := 50
  /** The `type` tag of conversations this route creates. */
  const ChatKind: string := "chat"

  datatype Role = User | Assistant

  datatype Conversation = Conversation(id: string, userId: string, title: string, kind: string)

  datatype Message = Message(conversationId: string, role: Role, content: string)

  /** The rows of the two tables the route writes, in creation order. */
  datatype Store = Store(conversations: seq<Conversation>, messages: seq<Message>)

  /** The two fields of the request body the route reads. */
  datatype ChatBody = ChatBody(content: string, conversationId: Option<string>)

  datatype Write = Committed | WriteFailed

  /** What `generateResponse(content)` produced: text, or a thrown error. */
  datatype Generation = Generated(text: string) | GenerationFailed

  /** The outcome of every awaited call of a turn, in call order. The new
      conversation's id is whatever the database generates. */
  datatype Oracle = Oracle(
    newConversationId: string,
    conversationWrite: Write,
    userMessageWrite: Write,
    generation: Generation,
    assistantMessageWrite: Write)

  /** `{error: "Unauthorized"}` with 401, `{conversationId, response}` with 200,
      or `{error: "Failed to process chat"}` with 500. */
  datatype Response = Unauthorized | Answered(conversationId: string, response: string) | ServerError

  /** The side effects of a turn, in the order they happen. */
  datatype Event = ConversationCreated(id: string) | MessageCreated(role: Role) | GenerationCalled

  datatype Turn = Turn(store: Store, response: Response, trace: seq<Event>)

  function StatusCode(r: Response): int {
    match r
    case Unauthorized => 401
    case Answered(_, _) => 200
    case ServerError => 500
  }

  // ---------------------------------------------------------------------------
  // persistence
  // ---------------------------------------------------------------------------

  predicate HasConversation(store: Store, id: string) {
    exists i :: 0 <= i < |store.conversations| && store.conversations[i].id == id
  }

  /** Every message belongs to a conversation present in the store. */
  ghost predicate Integrity(store: Store) {
    forall i :: 0 <= i < |store.messages| ==> HasConversation(store, store.messages[i].conversationId)
  }

  /** `prisma.message.create`: fails when the database does, or when the
      conversation it references does not exist. */
  function CreateMessage(store: Store, m: Message, w: Write): (r: Option<Store>)
    ensures r.Some? <==> w == Committed && HasConversation(store, m.conversationId)
    ensures r.Some? ==> r.value == Store(store.conversations, store.messages + [m])
  {
    if w == Committed && HasConversation(store, m.conversationId) then
      Some(Store(store.conversations, store.messages + [m]))
    else
      None
  }

  // ---------------------------------------------------------------------------
  // the turn
  // ---------------------------------------------------------------------------

  /** The title of a new conversation: `content.slice(0, 50)`, with no fallback
      for empty content. */
  function Title(content: string): (t: string)
    ensures |t| <= TitleLimit && StartsWith(content, t)
    ensures |t| == TitleLimit || t == content
  {
    content[..if |content| < TitleLimit then |content| else TitleLimit]
  }

  /** The conversation a turn with this body writes to. */
  function TargetConversation(body: ChatBody, oracle: Oracle): string {
    if Truthy(body.conversationId) then body.conversationId.value else oracle.newConversationId
  }

  /** The store and trace after conversation resolution, or None when
      `prisma.conversation.create` threw. */
  function Resolve(store: Store, userId: string, body: ChatBody, oracle: Oracle): (r: Option<(Store, seq<Event>)>)
    ensures Truthy(body.conversationId) ==> r == Some((store, []))
    ensures !Truthy(body.conversationId) && oracle.conversationWrite == Committed ==>
      r == Some((Store(store.conversations + [Conversation(oracle.newConversationId, userId, Title(body.content), ChatKind)],
                       store.messages),
                 [ConversationCreated(oracle.newConversationId)]))
    ensures !Truthy(body.conversationId) && oracle.conversationWrite == WriteFailed ==> r.None?
  {
    if Truthy(body.conversationId) then
      Some((store, []))
    else if oracle.conversationWrite == Committed then
      var c := Conversation(oracle.newConversationId, userId, Title(body.content), ChatKind);
      Some((Store(store.conversations + [c], store.messages), [ConversationCreated(c.id)]))
    else
      None
  }

  /** Everything after conversation resolution: user message, generation,
      assistant message, response. */
  function Record(s1: Store, e1: seq<Event>, convId: string, content: string, oracle: Oracle): (t: Turn)
    ensures t.store.conversations == s1.conversations && s1.messages <= t.store.messages
    ensures t.response.Answered? <==>
      && oracle.userMessageWrite == Committed && HasConversation(s1, convId)
      && oracle.generation.Generated? && oracle.assistantMessageWrite == Committed
    ensures t.response.Answered? ==>
      && t.response == Answered(convId, oracle.generation.text)
      && t.store.messages == s1.messages + [Message(convId, User, content),
                                           Message(convId, Assistant, oracle.generation.text)]
    ensures !t.response.Answered? ==> t.response == ServerError
    ensures oracle.generation.GenerationFailed? ==>
      forall i :: |s1.messages| <= i < |t.store.messages| ==> t.store.messages[i].role == User
    // a failure leaves exactly what was written before it
    ensures !(oracle.userMessageWrite == Committed && HasConversation(s1, convId)) ==>
      t.store == s1 && t.trace == e1
    ensures oracle.userMessageWrite == Committed && HasConversation(s1, convId) && !t.response.Answered? ==>
      t.store == Store(s1.conversations, s1.messages + [Message(convId, User, content)])
      && t.trace == e1 + [MessageCreated(User), GenerationCalled]
    ensures || t.trace == e1
            || t.trace == e1 + [MessageCreated(User), GenerationCalled]
            || t.trace == e1 + [MessageCreated(User), GenerationCalled, MessageCreated(Assistant)]
  {
    match CreateMessage(s1, Message(convId, User, content), oracle.userMessageWrite)
    case None => Turn(s1, ServerError, e1)
    case Some(s2) =>
      var e2 := e1 + [MessageCreated(User), GenerationCalled];
      match oracle.generation
      case GenerationFailed => Turn(s2, ServerError, e2)
      case Generated(text) =>
        match CreateMessage(s2, Message(convId, Assistant, text), oracle.assistantMessageWrite)
        case None => Turn(s2, ServerError, e2)
        case Some(s3) => Turn(s3, Answered(convId, text), e2 + [MessageCreated(Assistant)])
  }

  /** Whether the turn gets as far as storing the user message: signed in, a
      parsed body, a conversation to write to, and a committed write. */
  predicate UserMessageStored(store: Store, userId: Option<string>, body: Option<ChatBody>, oracle: Oracle) {
    && Truthy(userId)
    && body.Some?
    && (Truthy(body.value.conversationId) || oracle.conversationWrite == Committed)
    && (Truthy(body.value.conversationId) ==> HasConversation(store, body.value.conversationId.value))
    && oracle.userMessageWrite == Committed
  }

  /** Whether every awaited call of the turn succeeds. */
  predicate TurnSucceeds(store: Store, userId: Option<string>, body: Option<ChatBody>, oracle: Oracle) {
    && UserMessageStored(store, userId, body, oracle)
    && oracle.generation.Generated?
    && oracle.assistantMessageWrite == Committed
  }

  /** One request to the chat route. `userId` is `session?.user?.id`; `body` is
      None when `req.json()` threw. */
  function Post(store: Store, userId: Option<string>, body: Option<ChatBody>, oracle: Oracle): (t: Turn)
    // the guard: 401 exactly when there is no user id, and then nothing is written
    ensures t.response == Unauthorized <==> !Truthy(userId)
    ensures !Truthy(userId) ==> t.store == store && t.trace == []
    // nothing is rolled back, and at most one conversation is created
    ensures store.conversations <= t.store.conversations && store.messages <= t.store.messages
    ensures |t.store.conversations| <= |store.conversations| + 1
    ensures |t.store.conversations| == |store.conversations| + 1 ==>
      && Truthy(userId) && body.Some? && !Truthy(body.value.conversationId)
      && t.store.conversations[|store.conversations|] ==
         Conversation(oracle.newConversationId, userId.value, Title(body.value.content), ChatKind)
    ensures body.Some? && Truthy(body.value.conversationId) ==> t.store.conversations == store.conversations
    // success: exactly when every call succeeds, with exactly two messages appended
    ensures t.response.Answered? <==> TurnSucceeds(store, userId, body, oracle)
    ensures t.response.Answered? ==>
      var cid := TargetConversation(body.value, oracle);
      && t.response == Answered(cid, oracle.generation.text)
      && t.store.messages == store.messages + [Message(cid, User, body.value.content),
                                              Message(cid, Assistant, oracle.generation.text)]
    // a failed generation leaves the user message without a reply
    ensures Truthy(userId) && body.Some? && oracle.generation.GenerationFailed? ==>
      && t.response == ServerError
      && forall i :: |store.messages| <= i < |t.store.messages| ==> t.store.messages[i].role == User
    // a failure keeps the conversation created this turn and, once written, the user message
    ensures Truthy(userId) && body.Some? && !Truthy(body.value.conversationId) && oracle.conversationWrite == Committed ==>
      |t.store.conversations| == |store.conversations| + 1
    ensures !UserMessageStored(store, userId, body, oracle) ==> t.store.messages == store.messages
    ensures UserMessageStored(store, userId, body, oracle) && !t.response.Answered? ==>
      && t.response == ServerError
      && t.store.messages == store.messages + [Message(TargetConversation(body.value, oracle), User, body.value.content)]
    // the generation call happens at most once, right after the user message is written
    ensures GenerationFollowsUserMessage(t.trace)
    ensures GenerationCalled in t.trace <==> UserMessageStored(store, userId, body, oracle)
    // the conversation is created first, and the assistant message is written after generation
    ensures var created := Truthy(userId) && body.Some? && !Truthy(body.value.conversationId)
                           && oracle.conversationWrite == Committed;
      var e := if created then [ConversationCreated(oracle.newConversationId)] else [];
      || t.trace == e
      || t.trace == e + [MessageCreated(User), GenerationCalled]
      || t.trace == e + [MessageCreated(User), GenerationCalled, MessageCreated(Assistant)]
  {
    if !Truthy(userId) then
      Turn(store, Unauthorized, [])
    else if body.None? then
      Turn(store, ServerError, [])
    else
      match Resolve(store, userId.value, body.value, oracle)
      case None => Turn(store, ServerError, [])
      case Some((s1, e1)) =>
        var cid := TargetConversation(body.value, oracle);
        assert HasConversation(s1, cid) <==>
          (Truthy(body.value.conversationId) ==> HasConversation(store, body.value.conversationId.value)) by {
          if !Truthy(body.value.conversationId) {
            assert s1.conversations[|store.conversations|].id == cid;
          }
        }
        var t := Record(s1, e1, cid, body.value.content, oracle);
        TraceShapes(e1, t.trace);
        t
  }

  /** The generation call happens at most once, and right after the user
      message is written. */
  ghost predicate GenerationFollowsUserMessage(trace: seq<Event>) {
    && multiset(trace)[GenerationCalled] <= 1
    && forall i :: 0 <= i < |trace| && trace[i] == GenerationCalled ==>
         i > 0 && trace[i - 1] == MessageCreated(User)
  }

  lemma TraceShapes(e1: seq<Event>, trace: seq<Event>)
    requires e1 == [] || (|e1| == 1 && e1[0].ConversationCreated?)
    requires || trace == e1
             || trace == e1 + [MessageCreated(User), GenerationCalled]
             || trace == e1 + [MessageCreated(User), GenerationCalled, MessageCreated(Assistant)]
    ensures GenerationFollowsUserMessage(trace)
  {
    assert GenerationCalled !in e1;
    assert multiset(e1)[GenerationCalled] == 0;
    if trace != e1 {
      var n := |e1|;
      assert trace[n + 1] == GenerationCalled;
      forall i | 0 <= i < |trace| && trace[i] == GenerationCalled
        ensures i == n + 1
      {
      }
    }
  }

  // ---------------------------------------------------------------------------
  // properties across turns
  // ---------------------------------------------------------------------------

  /** A turn keeps every message attached to an existing conversation. */
  lemma PostPreservesIntegrity(store: Store, userId: Option<string>, body: Option<ChatBody>, oracle: Oracle)
    requires Integrity(store)
    ensures Integrity(Post(store, userId, body, oracle).store)
  {
    if Truthy(userId) && body.Some? {
      match Resolve(store, userId.value, body.value, oracle)
      case None =>
      case Some((s1, e1)) =>
        GrowingConversationsKeepIntegrity(store, s1);
        var cid := TargetConversation(body.value, oracle);
        assert Post(store, userId, body, oracle) == Record(s1, e1, cid, body.value.content, oracle);
        RecordKeepsIntegrity(s1, e1, cid, body.value.content, oracle);
    }
  }

  /** Adding conversations, and no messages, keeps integrity. */
  lemma GrowingConversationsKeepIntegrity(store: Store, s1: Store)
    requires Integrity(store)
    requires store.conversations <= s1.conversations && s1.messages == store.messages
    ensures Integrity(s1)
  {
    forall i | 0 <= i < |s1.messages|
      ensures HasConversation(s1, s1.messages[i].conversationId)
    {
      assert s1.messages[i] == store.messages[i];
      var j :| 0 <= j < |store.conversations| && store.conversations[j].id == s1.messages[i].conversationId;
      assert s1.conversations[j] == store.conversations[j];
    }
  }

  /** The messages a turn records all go to a conversation that exists. */
  lemma RecordKeepsIntegrity(s1: Store, e1: seq<Event>, convId: string, content: string, oracle: Oracle)
    requires Integrity(s1)
    ensures Integrity(Record(s1, e1, convId, content, oracle).store)
  {
    var t := Record(s1, e1, convId, content, oracle);
    forall i | 0 <= i < |t.store.messages|
      ensures HasConversation(t.store, t.store.messages[i].conversationId)
    {
      if i < |s1.messages| {
        assert t.store.messages[i] == s1.messages[i];
      } else {
        assert t.store.messages[i].conversationId == convId;
      }
    }
  }

  /** A successful first turn creates one conversation and appends its pair. */
  lemma NewConversationTurn(store: Store, user: string, content: string, oracle: Oracle)
    requires user != ""
    requires oracle.conversationWrite == Committed && oracle.userMessageWrite == Committed
    requires oracle.generation.Generated? && oracle.assistantMessageWrite == Committed
    ensures var t := Post(store, Some(user), Some(ChatBody(content, None)), oracle);
      var cid := oracle.newConversationId;
      && t.response == Answered(cid, oracle.generation.text)
      && t.store == Store(store.conversations + [Conversation(cid, user, Title(content), ChatKind)],
                          store.messages + [Message(cid, User, content), Message(cid, Assistant, oracle.generation.text)])
  {
    var t := Post(store, Some(user), Some(ChatBody(content, None)), oracle);
    assert TurnSucceeds(store, Some(user), Some(ChatBody(content, None)), oracle);
    assert t.store.conversations[..|store.conversations|] == store.conversations;
  }

  /** A successful turn on an existing conversation creates none and appends its pair. */
  lemma FollowUpTurn(store: Store, user: string, content: string, cid: string, oracle: Oracle)
    requires user != "" && cid != "" && HasConversation(store, cid)
    requires oracle.userMessageWrite == Committed
    requires oracle.generation.Generated? && oracle.assistantMessageWrite == Committed
    ensures var t := Post(store, Some(user), Some(ChatBody(content, Some(cid))), oracle);
      && t.response == Answered(cid, oracle.generation.text)
      && t.store == Store(store.conversations,
                          store.messages + [Message(cid, User, content), Message(cid, Assistant, oracle.generation.text)])
  {
    assert TurnSucceeds(store, Some(user), Some(ChatBody(content, Some(cid))), oracle);
  }

  /** No ownership check: a signed-in user can append to a conversation that
      belongs to someone else. */
  lemma ForeignConversationAccepted(store: Store, owner: string, intruder: string, content: string, oracle: Oracle)
    requires |store.conversations| > 0 && store.conversations[0].userId == owner
    requires intruder != "" && intruder != owner && store.conversations[0].id != ""
    requires oracle.userMessageWrite == Committed && oracle.assistantMessageWrite == Committed
    requires oracle.generation.Generated?
    ensures var t := Post(store, Some(intruder), Some(ChatBody(content, Some(store.conversations[0].id))), oracle);
      && t.response == Answered(store.conversations[0].id, oracle.generation.text)
      && t.store.messages[|store.messages|] == Message(store.conversations[0].id, User, content)
  {
    var body := ChatBody(content, Some(store.conversations[0].id));
    assert HasConversation(store, store.conversations[0].id);
    assert TurnSucceeds(store, Some(intruder), Some(body), oracle);
  }

  /** A retry with the id of a conversation created by a turn whose generation
      failed reuses it: the orphaned user message stays, followed by the new pair. */
  lemma RetryAfterGenerationFailure(store: Store, user: string, content: string, first: Oracle, second: Oracle)
    requires user != "" && first.newConversationId != ""
    requires first.conversationWrite == Committed && first.userMessageWrite == Committed
    requires first.generation == GenerationFailed
    requires second.userMessageWrite == Committed && second.assistantMessageWrite == Committed
    requires second.generation.Generated?
    ensures var t1 := Post(store, Some(user), Some(ChatBody(content, None)), first);
      var cid := first.newConversationId;
      var t2 := Post(t1.store, Some(user), Some(ChatBody(content, Some(cid))), second);
      && t1.response == ServerError
      && t2.response == Answered(cid, second.generation.text)
      && t2.store.conversations == t1.store.conversations
      && t2.store.messages == store.messages + [Message(cid, User, content), Message(cid, User, content),
                                               Message(cid, Assistant, second.generation.text)]
  {
    var cid := first.newConversationId;
    FailedNewConversationTurn(store, user, content, first);
    var s1 := Store(store.conversations + [Conversation(cid, user, Title(content), ChatKind)],
                    store.messages + [Message(cid, User, content)]);
    assert HasConversation(s1, cid) by {
      assert s1.conversations[|store.conversations|].id == cid;
    }
    FollowUpTurn(s1, user, content, cid, second);
  }

  /** A first turn whose generation fails keeps the new conversation and the
      user message, and answers 500. */
  lemma FailedNewConversationTurn(store: Store, user: string, content: string, oracle: Oracle)
    requires user != ""
    requires oracle.conversationWrite == Committed && oracle.userMessageWrite == Committed
    requires oracle.generation == GenerationFailed
    ensures var t := Post(store, Some(user), Some(ChatBody(content, None)), oracle);
      var cid := oracle.newConversationId;
      && t.response == ServerError
      && t.store == Store(store.conversations + [Conversation(cid, user, Title(content), ChatKind)],
                          store.messages + [Message(cid, User, content)])
  {
    var body := ChatBody(content, None);
    var cid := oracle.newConversationId;
    var s1 := Store(store.conversations + [Conversation(cid, user, Title(content), ChatKind)], store.messages);
    assert Resolve(store, user, body, oracle) == Some((s1, [ConversationCreated(cid)]));
    assert HasConversation(s1, cid) by {
      assert s1.conversations[|store.conversations|].id == cid;
    }
    assert Post(store, Some(user), Some(body), oracle) == Record(s1, [ConversationCreated(cid)], cid, content, oracle);
  }
}

=== FILE: file_card.dfy ===
/** The decisions inside components/folders/FileCard.tsx: which icon a file
    gets, how its size is written, the type label, and whether the pages line
    appears. The JSX around them is not modelled. */
module FileCard {
  import opened Wrappers
  import opened Strings
  import FileParser

  // ---------------------------------------------------------------------------
  // icon
  // ---------------------------------------------------------------------------

  /** The three icons: a blue image, a red document, a grey document. */
  datatype Icon = BlueImage | RedDocument | GreyDocument

  /** `getFileIcon`: the `image/` test comes before the PDF test. */
  function IconFor(fileType: string): (i: Icon)
    ensures i == BlueImage <==> StartsWith(fileType, FileParser.ImagePrefix)
    ensures i == RedDocument <==> fileType == FileParser.PdfType
    ensures i == GreyDocument <==>
      !StartsWith(fileType, FileParser.ImagePrefix) && fileType != FileParser.PdfType
  {
    assert !StartsWith(FileParser.PdfType, FileParser.ImagePrefix) by {
      assert FileParser.PdfType[0] != FileParser.ImagePrefix[0];
    }
    if StartsWith(fileType, FileParser.ImagePrefix) then BlueImage
    else if fileType == FileParser.PdfType then RedDocument
    else GreyDocument
  }

  /** The card's icon agrees with the branch the parser took for the same type:
      image icon for images, red icon for PDFs, grey for the rest (DOCX included). */
  lemma IconAgreesWithParser(fileType: string)
    ensures IconFor(fileType) == BlueImage <==> FileParser.FormatOf(fileType) == FileParser.Image
    ensures IconFor(fileType) == RedDocument <==> FileParser.FormatOf(fileType) == FileParser.Pdf
    ensures IconFor(fileType) == GreyDocument <==>
      FileParser.FormatOf(fileType) in {FileParser.Docx, FileParser.Unsupported}
  {
  }

  // ---------------------------------------------------------------------------
  // size
  // ---------------------------------------------------------------------------

  const KiB: nat := 1024
  const MiB: nat := 1024 * 1024

  datatype SizeUnit = B | KB | MB

  /** The unit `formatFileSize` picks. */
  function UnitFor(bytes: nat): (u: SizeUnit)
    ensures u == B <==> bytes < KiB
    ensures u == KB <==> KiB <= bytes < MiB
    ensures u == MB <==> MiB <= bytes
  {
    if bytes < KiB then B else if bytes < MiB then KB else MB
  }

  function Suffix(u: SizeUnit): string {
    match u
    case B => " B"
    case KB => " KB"
    case MB => " MB"
  }

  /** `(bytes / divisor).toFixed(1)` as a count of tenths. The quotient of an
      integer below 2^53 by a power of two is exact in a double, and `toFixed`
      picks the nearest multiple of 0.1, the larger one on a tie. */
  function Tenths(bytes: nat, divisor: nat): (n: nat)
    requires divisor > 0
    ensures 10 * bytes * 2 - divisor < n * divisor * 2 <= 10 * bytes * 2 + divisor
  {
    (20 * bytes + divisor) / (2 * divisor)
  }

  /** A count of tenths written with one decimal place, as `toFixed(1)` does. */
  function ShowTenths(n: nat): string {
    Decimal(n / 10) + "." + [DigitChar(n % 10)]
  }

  /** `formatFileSize(bytes)`: below 1024 the exact integer with " B";
      from there the one-decimal quotient by 1024 (" KB") or by 1024 * 1024
      (" MB"), within half a tenth of the true value. */
  function FormatFileSize(bytes: nat): (r: string)
    ensures bytes < KiB ==>
      && |r| >= 3 && r[|r| - 2..] == " B"
      && AllDigits(r[..|r| - 2]) && ParseDecimal(r[..|r| - 2]) == bytes
      && r[..|r| - 2] == Decimal(bytes)
      && (r[0] != '0' || bytes == 0)
    ensures bytes == 0 ==> r == "0 B"
    ensures KiB <= bytes ==>
      var d := if bytes < MiB then KiB else MiB;
      var n := Tenths(bytes, d);
      && r == Decimal(n / 10) + "." + [DigitChar(n % 10)] + Suffix(UnitFor(bytes))
      && 10 * bytes * 2 - d < n * d * 2 <= 10 * bytes * 2 + d
  {
    match UnitFor(bytes)
    case B =>
      BytesText(bytes);
      Decimal(bytes) + Suffix(B)
    case KB => ShowTenths(Tenths(bytes, KiB)) + Suffix(KB)
    case MB => ShowTenths(Tenths(bytes, MiB)) + Suffix(MB)
  }

  /** `bytes + " B"` is the canonical decimal of `bytes` followed by the unit. */
  lemma BytesText(bytes: nat)
    ensures var r := Decimal(bytes) + Suffix(B);
      && |r| >= 3 && r[|r| - 2..] == " B" && r[..|r| - 2] == Decimal(bytes)
      && AllDigits(r[..|r| - 2]) && ParseDecimal(r[..|r| - 2]) == bytes
      && (r[0] != '0' || bytes == 0)
  {
    var r := Decimal(bytes) + Suffix(B);
    assert r[..|r| - 2] == Decimal(bytes);
    ParseDecimalOfDecimal(bytes);
  }

  /** The three units partition the sizes and grow with them. */
  lemma UnitMonotone(a: nat, b: nat)
    requires a <= b
    ensures UnitFor(a) == MB ==> UnitFor(b) == MB
    ensures UnitFor(b) == B ==> UnitFor(a) == B
  {
  }

  // ---------------------------------------------------------------------------
  // type label
  // ---------------------------------------------------------------------------

  /** `file.type.split("/")[1].toUpperCase()`; None when the type holds no
      "/", where `toUpperCase` is called on `undefined` and rendering throws. */
  function TypeLabel(fileType: string): (r: Option<string>)
    ensures r.None? <==> '/' !in fileType
    ensures r.Some? ==> '/' !in r.value && forall i :: 0 <= i < |r.value| ==> !IsAsciiLower(r.value[i])
  {
    match SecondField(fileType, '/')
    case None => None
    case Some(sub) => Some(ToUpper(sub))
  }

  /** For `top/sub` the label is the upper-cased subtype. */
  lemma TypeLabelOfMediaType(top: string, sub: string)
    requires '/' !in top && '/' !in sub
    ensures TypeLabel(top + "/" + sub) == Some(ToUpper(sub))
  {
    SecondFieldOfJoin(top, '/', sub);
  }

  lemma PdfLabel()
    ensures TypeLabel(FileParser.PdfType) == Some("PDF")
  {
    var upper := ToUpper("pdf");
    assert upper == "PDF" by {
      assert upper[0] == 'P' && upper[1] == 'D' && upper[2] == 'F';
    }
    TypeLabelOfMediaType("application", "pdf");
    assert FileParser.PdfType == "application" + "/" + "pdf";
  }

  // ---------------------------------------------------------------------------
  // pages line
  // ---------------------------------------------------------------------------

  /** What `{file.pages && <p>Pages: {file.pages}</p>}` puts on the card. */
  datatype PagesSlot = NoPagesSlot | StrayText(text: string) | PagesLine(pages: int)

  /** As written: React renders a falsy number, so `pages == 0` shows a bare "0". */
  function PagesSlotAsWritten(pages: Option<int>): (r: PagesSlot)
    ensures r.PagesLine? <==> pages.Some? && pages.value != 0
    ensures r.PagesLine? ==> r.pages == pages.value
    ensures pages.None? ==> r == NoPagesSlot
    ensures pages == Some(0) ==> r == StrayText("0")
  {
    match pages
    case None => NoPagesSlot
    case Some(p) => if p == 0 then StrayText(Decimal(0)) else PagesLine(p)
  }

  /** A PDF whose page count is 0 gets a stray "0" on its card. */
  lemma ZeroPagesShowsStrayZero()
    ensures PagesSlotAsWritten(Some(0)) == StrayText("0")
  {
  }

  /** As intended: the line when `pages` is truthy, nothing otherwise. */
  function PagesSlotFor(pages: Option<int>): (r: PagesSlot)
    ensures r.PagesLine? <==> pages.Some? && pages.value != 0
    ensures r.PagesLine? ==> r.pages == pages.value
    ensures !r.PagesLine? ==> r == NoPagesSlot
  {
    if pages.Some? && pages.value != 0 then PagesLine(pages.value) else NoPagesSlot
  }

  /** The two agree everywhere except on a zero page count. */
  lemma PagesSlotDiffersOnlyAtZero(pages: Option<int>)
    ensures PagesSlotAsWritten(pages) != PagesSlotFor(pages) <==> pages == Some(0)
  {
  }

  // ---------------------------------------------------------------------------
  // the card
  // ---------------------------------------------------------------------------

  /** The stored file fields the card reads; `pages` is null for DOCX and
      unsupported types. */
  datatype StoredFile = StoredFile(fileType: string, size: nat, pages: Option<int>)

  datatype CardDetails = CardDetails(icon: Icon, size: string, pages: PagesSlot, typeLabel: Option<string>)

  /** The decided parts of one card, as the component renders them. */
  function Card(f: StoredFile): (c: CardDetails)
    ensures c.icon == IconFor(f.fileType) && c.size == FormatFileSize(f.size)
    ensures c.icon == BlueImage <==> StartsWith(f.fileType, FileParser.ImagePrefix)
    ensures c.pages == PagesSlotAsWritten(f.pages)
    ensures c.pages.PagesLine? <==> f.pages.Some? && f.pages.value != 0
    ensures f.pages == Some(0) ==> c.pages == StrayText("0")
    ensures c.typeLabel == TypeLabel(f.fileType)
    ensures c.typeLabel.None? <==> '/' !in f.fileType
  {
    CardDetails(IconFor(f.fileType), FormatFileSize(f.size), PagesSlotAsWritten(f.pages), TypeLabel(f.fileType))
  }

  /** The card with the intended pages slot: nothing for a falsy page count. */
  function IntendedCard(f: StoredFile): (c: CardDetails)
    ensures c.pages == PagesSlotFor(f.pages)
    ensures !c.pages.StrayText?
    ensures c.pages.PagesLine? <==> f.pages.Some? && f.pages.value != 0
  {
    CardDetails(IconFor(f.fileType), FormatFileSize(f.size), PagesSlotFor(f.pages), TypeLabel(f.fileType))
  }

  /** The rendered and intended cards agree on every file except one stored
      with a page count of 0. */
  lemma CardDiffersOnlyAtZeroPages(f: StoredFile)
    ensures Card(f) != IntendedCard(f) <==> f.pages == Some(0)
  {
    PagesSlotDiffersOnlyAtZero(f.pages);
  }

  /** A parsed image is stored with one page, so its card shows the pages line. */
  lemma ParsedImageCardShowsOnePage(file: FileParser.Buffer, fileType: string, parsers: FileParser.Parsers, size: nat)
    requires StartsWith(fileType, FileParser.ImagePrefix)
    requires parsers.image(file).Returned?
    ensures var p := FileParser.ParseFile(file, fileType, parsers);
      Card(StoredFile(fileType, size, p.pages)).pages == PagesLine(1)
      && Card(StoredFile(fileType, size, p.pages)).icon == BlueImage
  {
  }
}

=== FILE: file_parser.dfy ===
/** The format dispatcher `parseFile(file, fileType)` of lib/fileParser.ts: it
    picks one extraction library by the declared media type and normalises every
    outcome, a thrown exception included, to `{text, pages}`.

    The three libraries (pdf-parse, mammoth, sharp) are foreign code; each is an
    abstract function from the buffer to either a value or "threw". */
module FileParser {
  import opened Wrappers
  import opened Strings

  const PdfType: string := "application/pdf"
  /** The Office Open XML word-processing type, written in three pieces. */
  const DocxType: string :=
    "application/" + "vnd.openxmlformats-officedocument" + ".wordprocessingml.document"
  const ImagePrefix: string := "image/"

  type Buffer = seq<bv8>

  /** What an awaited library call produced: a value, or an exception. */
  datatype Attempt<+T> = Returned(value: T) | Threw

  /** The fields of pdf-parse's result that `parseFile` reads. */
  datatype PdfData = PdfData(text: string, numpages: nat)

  /** sharp's `metadata()`; a dimension is `undefined` when sharp cannot tell. */
  datatype ImageMetadata = ImageMetadata(width: Option<nat>, height: Option<nat>)

  /** The three extraction libraries. */
  datatype Parsers = Parsers(
    pdf: Buffer -> Attempt<PdfData>,
    docx: Buffer -> Attempt<string>,
    image: Buffer -> Attempt<ImageMetadata>)

  /** `{ text, pages }`, with `pages: null` as None. */
  datatype ParseResult = ParseResult(text: string, pages: Option<nat>)

  /** The branch `parseFile` takes for a media type. */
  datatype Format = Pdf | Docx | Image | Unsupported

  /** The result of the fall-through branch and of the `catch` block. */
  const EmptyResult: ParseResult := ParseResult("", None)

  /** The branch order of `parseFile`: exact PDF, exact DOCX, then the `image/` prefix. */
  function FormatOf(fileType: string): (f: Format)
    ensures f == Pdf <==> fileType == PdfType
    ensures f == Docx <==> fileType == DocxType
    ensures f == Image <==> StartsWith(fileType, ImagePrefix)
    ensures f == Unsupported <==>
      fileType != PdfType && fileType != DocxType && !StartsWith(fileType, ImagePrefix)
  {
    assert !StartsWith(PdfType, ImagePrefix) by { assert PdfType[0] != ImagePrefix[0]; }
    assert !StartsWith(DocxType, ImagePrefix) by { assert DocxType[..6][0] == 'a'; }
    if fileType == PdfType then Pdf
    else if fileType == DocxType then Docx
    else if StartsWith(fileType, ImagePrefix) then Image
    else Unsupported
  }

  /** How a template literal renders a number that may be `undefined`. */
  function ShowDimension(d: Option<nat>): (r: string)
    ensures d.None? ==> r == "undefined"
    ensures d.Some? ==> AllDigits(r) && ParseDecimal(r) == d.value
    ensures d.Some? ==> |r| >= 1 && (r[0] != '0' || d.value == 0)
    ensures d == Some(0) ==> r == "0"
  {
    match d
    case None => "undefined"
    case Some(n) => ParseDecimalOfDecimal(n); Decimal(n)
  }

  /** The `{width}x{height}` part of the image description. */
  function Dimensions(m: ImageMetadata): string {
    ShowDimension(m.width) + "x" + ShowDimension(m.height)
  }

  /** The description `Image file: {width}x{height}`. */
  function ImageText(m: ImageMetadata): (r: string)
    ensures StartsWith(r, "Image file: ")
  {
    "Image file: " + Dimensions(m)
  }

  /** `parseFile(file, fileType)`: never throws; the chosen library's exception
      becomes the empty result. */
  function ParseFile(file: Buffer, fileType: string, parsers: Parsers): (r: ParseResult)
    ensures FormatOf(fileType) == Unsupported || ChosenParserThrew(FormatOf(fileType), file, parsers) ==>
      r == EmptyResult
    ensures r.pages.Some? ==> FormatOf(fileType) in {Pdf, Image} && !ChosenParserThrew(FormatOf(fileType), file, parsers)
    ensures FormatOf(fileType) == Image && !ChosenParserThrew(Image, file, parsers) ==>
      r.pages == Some(1) && StartsWith(r.text, "Image file: ")
  {
    match FormatOf(fileType)
    case Pdf =>
      (match parsers.pdf(file)
       case Returned(d) => ParseResult(d.text, Some(d.numpages))
       case Threw => EmptyResult)
    case Docx =>
      (match parsers.docx(file)
       case Returned(t) => ParseResult(t, None)
       case Threw => EmptyResult)
    case Image =>
      (match parsers.image(file)
       case Returned(m) => ParseResult(ImageText(m), Some(1))
       case Threw => EmptyResult)
    case Unsupported => EmptyResult
  }

  /** Whether the library `parseFile` picks for `f` threw on `file`. */
  predicate ChosenParserThrew(f: Format, file: Buffer, parsers: Parsers) {
    match f
    case Pdf => parsers.pdf(file).Threw?
    case Docx => parsers.docx(file).Threw?
    case Image => parsers.image(file).Threw?
    case Unsupported => false
  }

  /** Two library sets that agree on the one library `f` selects. */
  predicate AgreeOn(f: Format, file: Buffer, p: Parsers, q: Parsers) {
    match f
    case Pdf => p.pdf(file) == q.pdf(file)
    case Docx => p.docx(file) == q.docx(file)
    case Image => p.image(file) == q.image(file)
    case Unsupported => true
  }

  /** Exactly `application/pdf` yields the PDF text and page count. */
  lemma PdfYieldsTextAndPageCount(file: Buffer, parsers: Parsers, d: PdfData)
    requires parsers.pdf(file) == Returned(d)
    ensures ParseFile(file, PdfType, parsers) == ParseResult(d.text, Some(d.numpages))
  {
  }

  /** The DOCX type yields the raw text and no page count. */
  lemma DocxYieldsTextWithoutPages(file: Buffer, parsers: Parsers, t: string)
    requires parsers.docx(file) == Returned(t)
    ensures ParseFile(file, DocxType, parsers) == ParseResult(t, None)
  {
  }

  /** Every `image/` type yields the dimensions text and one page. */
  lemma ImageYieldsDimensionsAndOnePage(file: Buffer, fileType: string, parsers: Parsers, m: ImageMetadata)
    requires StartsWith(fileType, ImagePrefix)
    requires parsers.image(file) == Returned(m)
    ensures ParseFile(file, fileType, parsers) == ParseResult(ImageText(m), Some(1))
  {
  }

  /** Totality and the error policy: the result is empty exactly when the type
      is unsupported or the chosen library threw, or it returned empty text
      (possible for PDF and DOCX, which carry no other marker). */
  lemma EmptyResultIff(file: Buffer, fileType: string, parsers: Parsers)
    ensures ParseFile(file, fileType, parsers).pages.None? && ParseFile(file, fileType, parsers).text == "" <==>
      || FormatOf(fileType) == Unsupported
      || ChosenParserThrew(FormatOf(fileType), file, parsers)
      || (FormatOf(fileType) == Docx && parsers.docx(file) == Returned(""))
  {
    if FormatOf(fileType) == Image && parsers.image(file).Returned? {
      assert ParseFile(file, fileType, parsers).text[0] == 'I';
    }
  }

  /** At most one library is consulted: results do not depend on the others. */
  lemma ParseFileReadsOnlyChosenParser(file: Buffer, fileType: string, p: Parsers, q: Parsers)
    requires AgreeOn(FormatOf(fileType), file, p, q)
    ensures ParseFile(file, fileType, p) == ParseFile(file, fileType, q)
  {
  }

  /** Matching is exact and case-sensitive: parameters and upper case fall through. */
  lemma NearMissesAreUnsupported()
    ensures FormatOf("application/pdf; x") == Unsupported
    ensures FormatOf("IMAGE/PNG") == Unsupported
    ensures FormatOf("image/png") == Image
    ensures FormatOf("image") == Unsupported
  {
    assert "IMAGE/PNG"[..6] != ImagePrefix by { assert "IMAGE/PNG"[0] != ImagePrefix[0]; }
    assert "application/pdf; x"[..6] != ImagePrefix by { assert "application/pdf; x"[0] != ImagePrefix[0]; }
    assert "application/pdf; x" != PdfType by { assert |"application/pdf; x"| != |PdfType|; }
    assert "image/png"[..6] == ImagePrefix;
  }

  /** The image description determines both dimensions: nothing is lost in the
      `{width}x{height}` text. */
  lemma {:induction false} ImageTextInjective(m: ImageMetadata, n: ImageMetadata)
    requires ImageText(m) == ImageText(n)
    ensures m == n
  {
    var p := "Image file: ";
    assert Dimensions(m) == ImageText(m)[|p|..];
    assert Dimensions(n) == ImageText(n)[|p|..];
    NoXInDimension(m.width);
    NoXInDimension(n.width);
    SplitAtSeparator(ShowDimension(m.width), ShowDimension(m.height),
                     ShowDimension(n.width), ShowDimension(n.height), 'x');
    ShowDimensionInjective(m.width, n.width);
    ShowDimensionInjective(m.height, n.height);
  }

  lemma NoXInDimension(d: Option<nat>)
    ensures 'x' !in ShowDimension(d)
  {
    var r := ShowDimension(d);
    if d.Some? {
      assert forall i :: 0 <= i < |r| ==> IsDigit(r[i]);
    } else {
      assert r == "undefined";
    }
  }

  lemma ShowDimensionInjective(d: Option<nat>, e: Option<nat>)
    requires ShowDimension(d) == ShowDimension(e)
    ensures d == e
  {
  }

  /** `a + [x] + b == c + [x] + d` with no `x` in `a`, `c` splits at the same point. */
  lemma SplitAtSeparator(a: string, b: string, c: string, d: string, x: char)
    requires a + [x] + b == c + [x] + d
    requires x !in a && x !in c
    ensures a == c && b == d
  {
    IndexOfJoin(a, x, b);
    IndexOfJoin(c, x, d);
    assert |a| == |c|;
    assert a == (a + [x] + b)[..|a|];
    assert c == (c + [x] + d)[..|c|];
    assert b == (a + [x] + b)[|a| + 1..];
    assert d == (c + [x] + d)[|c| + 1..];
  }
}

=== FILE: folder_tree.dfy ===
/** The decisions inside components/folders/FolderTree.tsx: the rename guard
    of a folder row, the choice of root folders, the drag-and-drop reorder of
    the tree's item list, and the indentation of nested rows. The JSX, the
    React state hooks and the fetch transport are not modelled. */
module FolderTree {
  import opened Wrappers
  import opened Strings

  /** A folder as the component receives it; `children` are the folders nested
      under it, `parentId` is null (None) or "" for a top-level folder. */
  datatype Folder = Folder(id: string, name: string, parentId: Option<string>, children: seq<Folder>)

  // ---------------------------------------------------------------------------
  // rename
  // ---------------------------------------------------------------------------

  /** Either a PATCH with the new name, or simply leaving edit mode. */
  datatype RenameAction = SendRename(name: string) | StopEditing

  /** `handleRename`: a rename is sent only for a name that is not blank and
      differs from the current one; the name is sent as typed, untrimmed. */
  function HandleRename(newName: string, currentName: string): (a: RenameAction)
    ensures a.SendRename? <==> !Blank(newName) && newName != currentName
    ensures a.SendRename? ==> a.name == newName
  {
    TrimEmptyIffBlank(newName);
    if Trim(newName) != [] && newName != currentName then SendRename(newName) else StopEditing
  }

  /** Surrounding spaces do not stop a rename, and they are kept. */
  lemma RenameKeepsSurroundingSpaces()
    ensures HandleRename(" Notes ", "Notes") == SendRename(" Notes ")
    ensures HandleRename("   ", "Notes") == StopEditing
    ensures HandleRename("Notes", "Notes") == StopEditing
  {
    assert !IsWhitespace(" Notes "[1]);
    assert " Notes " != "Notes" by { assert |" Notes "| != |"Notes"|; }
  }

  // ---------------------------------------------------------------------------
  // root folders
  // ---------------------------------------------------------------------------

  predicate IsRoot(f: Folder) {
    !Truthy(f.parentId)
  }

  /** `folders.filter((f) => !f.parentId)`. */
  function RootFolders(folders: seq<Folder>): (r: seq<Folder>)
    ensures |r| <= |folders|
    ensures forall f :: f in r <==> f in folders && IsRoot(f)
  {
    if |folders| == 0 then []
    else
      var rest := RootFolders(folders[1..]);
      assert forall f :: f in folders <==> f == folders[0] || f in folders[1..];
      if IsRoot(folders[0]) then [folders[0]] + rest else rest
  }

  /** The filter keeps input order: it distributes over concatenation. */
  lemma {:induction false} RootFoldersAppend(a: seq<Folder>, b: seq<Folder>)
    ensures RootFolders(a + b) == RootFolders(a) + RootFolders(b)
  {
    if |a| == 0 {
      assert a + b == b;
    } else {
      assert (a + b)[1..] == a[1..] + b;
      RootFoldersAppend(a[1..], b);
    }
  }

  /** A list that is all roots passes through unchanged, so filtering twice is
      filtering once. */
  lemma {:induction false} RootFoldersOfRoots(folders: seq<Folder>)
    requires forall i :: 0 <= i < |folders| ==> IsRoot(folders[i])
    ensures RootFolders(folders) == folders
  {
    if |folders| > 0 {
      RootFoldersOfRoots(folders[1..]);
    }
  }

  lemma RootFoldersIdempotent(folders: seq<Folder>)
    ensures RootFolders(RootFolders(folders)) == RootFolders(folders)
  {
    var r := RootFolders(folders);
    assert forall i :: 0 <= i < |r| ==> r[i] in r;
    RootFoldersOfRoots(r);
  }

  // ---------------------------------------------------------------------------
  // drag and drop
  // ---------------------------------------------------------------------------

  /** `items.findIndex((item) => item.id === id)`: the first match, or -1. */
  function FindIndex(items: seq<Folder>, id: string): (r: int)
    ensures -1 <= r < |items|
    ensures r == -1 <==> forall i :: 0 <= i < |items| ==> items[i].id != id
    ensures r >= 0 ==> items[r].id == id && forall i :: 0 <= i < r ==> items[i].id != id
  {
    if |items| == 0 then -1
    else if items[0].id == id then 0
    else
      var k := FindIndex(items[1..], id);
      if k == -1 then -1 else k + 1
  }

  /** `s` without its element at `k`. */
  function RemoveAt<T>(s: seq<T>, k: nat): (r: seq<T>)
    requires k < |s|
    ensures |r| == |s| - 1
  {
    s[..k] + s[k + 1..]
  }

  /** `s` with `x` inserted so that it lands at position `k`. */
  function InsertAt<T>(s: seq<T>, k: nat, x: T): (r: seq<T>)
    requires k <= |s|
    ensures |r| == |s| + 1 && r[k] == x
  {
    s[..k] + [x] + s[k..]
  }

  lemma RemoveInsert<T>(s: seq<T>, k: nat, x: T)
    requires k <= |s|
    ensures RemoveAt(InsertAt(s, k, x), k) == s
  {
    var t := InsertAt(s, k, x);
    assert t[..k] == s[..k];
    assert t[k + 1..] == s[k..];
    assert s == s[..k] + s[k..];
  }

  lemma InsertRemove<T>(s: seq<T>, k: nat)
    requires k < |s|
    ensures InsertAt(RemoveAt(s, k), k, s[k]) == s
  {
    var r := RemoveAt(s, k);
    assert r[..k] == s[..k];
    assert r[k..] == s[k + 1..];
    assert s == s[..k] + [s[k]] + s[k + 1..];
  }

  /** `arrayMove(items, from, to)` of @dnd-kit/sortable for indices in range:
      remove the element at `from`, then insert it at `to`. */
  function ArrayMove<T>(s: seq<T>, from: nat, to: nat): (r: seq<T>)
    requires from < |s| && to < |s|
    ensures |r| == |s| && r[to] == s[from]
    ensures multiset(r) == multiset(s)
    ensures forall i :: 0 <= i < |s| && i < from && i < to ==> r[i] == s[i]
    ensures forall i :: 0 <= i < |s| && i > from && i > to ==> r[i] == s[i]
    ensures forall i :: from <= i < to ==> r[i] == s[i + 1]
    ensures forall i :: to < i <= from ==> r[i] == s[i - 1]
  {
    var rest := RemoveAt(s, from);
    var r := InsertAt(rest, to, s[from]);
    MultisetRemoveAt(s, from);
    MultisetInsertAt(rest, to, s[from]);
    r
  }

  lemma MultisetRemoveAt<T>(s: seq<T>, k: nat)
    requires k < |s|
    ensures multiset(RemoveAt(s, k)) + multiset{s[k]} == multiset(s)
  {
    assert s == s[..k] + [s[k]] + s[k + 1..];
  }

  lemma MultisetInsertAt<T>(s: seq<T>, k: nat, x: T)
    requires k <= |s|
    ensures multiset(InsertAt(s, k, x)) == multiset(s) + multiset{x}
  {
    assert s == s[..k] + s[k..];
  }

  /** Moving an element back where it came from restores the list. */
  lemma ArrayMoveInverse<T>(s: seq<T>, from: nat, to: nat)
    requires from < |s| && to < |s|
    ensures ArrayMove(ArrayMove(s, from, to), to, from) == s
  {
    var rest := RemoveAt(s, from);
    var m := ArrayMove(s, from, to);
    assert m == InsertAt(rest, to, s[from]);
    RemoveInsert(rest, to, s[from]);
    assert ArrayMove(m, to, from) == InsertAt(RemoveAt(m, to), from, m[to]);
    InsertRemove(s, from);
  }

  /** The body of `POST /api/folders/reorder`. */
  datatype ReorderRequest = ReorderRequest(folderId: string, newOrder: nat)

  /** What a drop does: throw because there was no drop target (`over` is
      null), nothing (dropped on itself), a reorder, or an id missing from the
      item list, which the code does not guard. */
  datatype DragOutcome = NoDropTarget | NoMove | Moved(items: seq<Folder>, request: ReorderRequest) | UnknownId

  /** `handleDragEnd` over the component's `items` list (all folders, not only
      the roots). */
  function HandleDragEnd(items: seq<Folder>, activeId: string, overId: Option<string>): (o: DragOutcome)
    ensures o == NoDropTarget <==> overId.None?
    ensures o == NoMove <==> overId == Some(activeId)
    ensures o == UnknownId <==>
      && overId.Some? && overId.value != activeId
      && (FindIndex(items, activeId) == -1 || FindIndex(items, overId.value) == -1)
    ensures o.Moved? ==>
      var oldIndex := FindIndex(items, activeId);
      var newIndex := FindIndex(items, overId.value);
      && 0 <= oldIndex && 0 <= newIndex
      && o.request == ReorderRequest(activeId, newIndex)
      && o.items == ArrayMove(items, oldIndex, newIndex)
      && o.items[newIndex] == items[oldIndex] && o.items[newIndex].id == activeId
      && multiset(o.items) == multiset(items)
  {
    match overId
    case None => NoDropTarget
    case Some(over) =>
      if activeId == over then NoMove
      else
        var oldIndex := FindIndex(items, activeId);
        var newIndex := FindIndex(items, over);
        if oldIndex == -1 || newIndex == -1 then UnknownId
        else Moved(ArrayMove(items, oldIndex, newIndex), ReorderRequest(activeId, newIndex))
  }

  predicate UniqueIds(items: seq<Folder>) {
    forall i, j :: 0 <= i < j < |items| ==> items[i].id != items[j].id
  }

  /** The position in the original list of the element `ArrayMove(_, from, to)`
      puts at `i`. */
  function Source(n: nat, from: nat, to: nat, i: nat): (k: nat)
    requires from < n && to < n && i < n
    ensures k < n
  {
    if i == to then from
    else if i < from && i < to then i
    else if i > from && i > to then i
    else if from <= i < to then i + 1
    else i - 1
  }

  lemma ArrayMoveSource<T>(s: seq<T>, from: nat, to: nat, i: nat)
    requires from < |s| && to < |s| && i < |s|
    ensures ArrayMove(s, from, to)[i] == s[Source(|s|, from, to, i)]
  {
  }

  lemma SourceInjective(n: nat, from: nat, to: nat, i: nat, j: nat)
    requires from < n && to < n && i < n && j < n && i != j
    ensures Source(n, from, to, i) != Source(n, from, to, j)
  {
  }

  /** Reordering keeps ids unique. */
  lemma ArrayMoveKeepsUniqueIds(items: seq<Folder>, from: nat, to: nat)
    requires UniqueIds(items) && from < |items| && to < |items|
    ensures UniqueIds(ArrayMove(items, from, to))
  {
    var moved := ArrayMove(items, from, to);
    forall i, j | 0 <= i < j < |moved|
      ensures moved[i].id != moved[j].id
    {
      ArrayMoveSource(items, from, to, i);
      ArrayMoveSource(items, from, to, j);
      SourceInjective(|items|, from, to, i, j);
      var ii, jj := Source(|items|, from, to, i), Source(|items|, from, to, j);
      if ii < jj {
        assert items[ii].id != items[jj].id;
      } else {
        assert items[jj].id != items[ii].id;
      }
    }
  }

  /** Dragging a folder and then dragging it back onto the folder that now sits
      at its old place restores the list, when ids are unique. */
  lemma DragBackRestores(items: seq<Folder>, activeId: string, overId: string)
    requires UniqueIds(items)
    requires HandleDragEnd(items, activeId, Some(overId)).Moved?
    ensures var moved := HandleDragEnd(items, activeId, Some(overId)).items;
      var oldIndex := FindIndex(items, activeId);
      var back := HandleDragEnd(moved, activeId, Some(moved[oldIndex].id));
      back.Moved? && back.items == items
  {
    var oldIndex := FindIndex(items, activeId);
    var newIndex := FindIndex(items, overId);
    var moved := ArrayMove(items, oldIndex, newIndex);
    assert HandleDragEnd(items, activeId, Some(overId)).items == moved;
    assert oldIndex != newIndex;
    ArrayMoveKeepsUniqueIds(items, oldIndex, newIndex);
    UniqueFind(moved, newIndex);
    UniqueFind(moved, oldIndex);
    assert moved[oldIndex].id != activeId;
    ArrayMoveInverse(items, oldIndex, newIndex);
  }

  /** With unique ids, `findIndex` of an element's id is its position. */
  lemma UniqueFind(items: seq<Folder>, k: nat)
    requires UniqueIds(items)
    requires k < |items|
    ensures FindIndex(items, items[k].id) == k
  {
  }

  // ---------------------------------------------------------------------------
  // indentation
  // ---------------------------------------------------------------------------

  /** `paddingLeft: level * 16 + 8` pixels. */
  function Indent(level: nat): nat {
    level * 16 + 8
  }

  /** The toggle button: a down or right chevron for a folder with children,
      a blank spacer otherwise. */
  datatype Chevron = ChevronDown | ChevronRight | Spacer

  /** One rendered folder row. */
  datatype Row = Row(id: string, paddingLeft: nat, chevron: Chevron)

  /** Whether a padding is one of the indentation steps from `level` down. */
  predicate IndentedBelow(padding: nat, level: nat) {
    padding >= Indent(level) && (padding - 8) % 16 == 0
  }

  /** `SortableFolderItem` at `level`: its own row, then (when expanded) its
      children at `level + 1`. A folder whose id is in `collapsed` has been
      toggled closed. */
  function NodeRows(f: Folder, level: nat, collapsed: set<string>): (rows: seq<Row>)
    decreases f
    ensures |rows| >= 1 && rows[0].id == f.id && rows[0].paddingLeft == Indent(level)
    ensures forall i :: 0 <= i < |rows| ==> IndentedBelow(rows[i].paddingLeft, level)
    ensures forall i :: 1 <= i < |rows| ==> IndentedBelow(rows[i].paddingLeft, level + 1)
  {
    var expanded := f.id !in collapsed;
    var chevron := if |f.children| > 0 then (if expanded then ChevronDown else ChevronRight) else Spacer;
    var below := if expanded then ForestRows(f.children, level + 1, collapsed) else [];
    var rows := [Row(f.id, Indent(level), chevron)] + below;
    assert forall i :: 1 <= i < |rows| ==> rows[i] == below[i - 1];
    rows
  }

  /** Some row of `rows` shows folder `id` at `padding` pixels. */
  ghost predicate HasRowAt(rows: seq<Row>, id: string, padding: nat) {
    exists j :: 0 <= j < |rows| && rows[j].id == id && rows[j].paddingLeft == padding
  }

  lemma HasRowAtAppend(a: seq<Row>, b: seq<Row>, id: string, padding: nat)
    ensures HasRowAt(a, id, padding) ==> HasRowAt(a + b, id, padding)
    ensures HasRowAt(b, id, padding) ==> HasRowAt(a + b, id, padding)
  {
    if HasRowAt(a, id, padding) {
      var j :| 0 <= j < |a| && a[j].id == id && a[j].paddingLeft == padding;
      assert (a + b)[j] == a[j];
    }
    if HasRowAt(b, id, padding) {
      var j :| 0 <= j < |b| && b[j].id == id && b[j].paddingLeft == padding;
      assert (a + b)[|a| + j] == b[j];
    }
  }

  /** A list of sibling folders, each rendered at the same level. */
  function ForestRows(fs: seq<Folder>, level: nat, collapsed: set<string>): (rows: seq<Row>)
    decreases fs
    ensures |fs| == 0 <==> rows == []
    ensures |fs| > 0 ==> rows[0].id == fs[0].id && rows[0].paddingLeft == Indent(level)
    ensures forall i :: 0 <= i < |rows| ==> IndentedBelow(rows[i].paddingLeft, level)
    ensures forall k :: 0 <= k < |fs| ==> HasRowAt(rows, fs[k].id, Indent(level))
  {
    if |fs| == 0 then []
    else
      var head := NodeRows(fs[0], level, collapsed);
      var rest := ForestRows(fs[1..], level, collapsed);
      assert forall k :: 0 <= k < |fs| ==> HasRowAt(head + rest, fs[k].id, Indent(level)) by {
        forall k | 0 <= k < |fs|
          ensures HasRowAt(head + rest, fs[k].id, Indent(level))
        {
          if k == 0 {
            assert (head + rest)[0] == head[0];
          } else {
            assert fs[k] == fs[1..][k - 1];
            HasRowAtAppend(head, rest, fs[k].id, Indent(level));
          }
        }
      }
      head + rest
  }

  /** The whole tree: the root folders at level 0. */
  function TreeRows(folders: seq<Folder>, collapsed: set<string>): (rows: seq<Row>)
    ensures RootFolders(folders) == [] <==> rows == []
    ensures |RootFolders(folders)| > 0 ==>
      rows[0].id == RootFolders(folders)[0].id && rows[0].paddingLeft == Indent(0)
    ensures forall f :: f in folders && IsRoot(f) ==> HasRowAt(rows, f.id, Indent(0))
    ensures forall i :: 0 <= i < |rows| ==> IndentedBelow(rows[i].paddingLeft, 0)
  {
    ForestRows(RootFolders(folders), 0, collapsed)
  }

  function Size(f: Folder): nat
    decreases f
  {
    1 + SizeAll(f.children)
  }

  function SizeAll(fs: seq<Folder>): nat
    decreases fs
  {
    if |fs| == 0 then 0 else Size(fs[0]) + SizeAll(fs[1..])
  }

  /** With nothing collapsed every folder of the tree gets exactly one row. */
  lemma {:induction false} AllExpandedRowsCount(f: Folder, level: nat)
    decreases f
    ensures |NodeRows(f, level, {})| == Size(f)
  {
    ForestExpandedRowsCount(f.children, level + 1);
  }

  lemma {:induction false} ForestExpandedRowsCount(fs: seq<Folder>, level: nat)
    decreases fs
    ensures |ForestRows(fs, level, {})| == SizeAll(fs)
  {
    if |fs| > 0 {
      AllExpandedRowsCount(fs[0], level);
      ForestExpandedRowsCount(fs[1..], level);
    }
  }

  /** A collapsed folder renders as its own row alone. */
  lemma CollapsedIsOneRow(f: Folder, level: nat, collapsed: set<string>)
    requires f.id in collapsed
    ensures NodeRows(f, level, collapsed) ==
      [Row(f.id, Indent(level), if |f.children| > 0 then ChevronRight else Spacer)]
  {
  }

  /** A child row sits exactly one step (16 pixels) right of its parent. */
  lemma ChildIndentedOneStep(f: Folder, level: nat, collapsed: set<string>)
    requires f.id !in collapsed && |f.children| > 0
    ensures var rows := NodeRows(f, level, collapsed);
      |rows| >= 2 && rows[1].id == f.children[0].id && rows[1].paddingLeft == rows[0].paddingLeft + 16
  {
    var rest := ForestRows(f.children, level + 1, collapsed);
    assert rest[..|NodeRows(f.children[0], level + 1, collapsed)|] == NodeRows(f.children[0], level + 1, collapsed);
  }
}

=== FILE: strings.dfy ===
/** The few JavaScript string operations the modelled code relies on: `trim`,
    `startsWith`, `split(sep)[1]`, ASCII `toUpperCase`, and the decimal rendering
    of a non-negative integer (`n + ""`). A `char` is a Unicode scalar value; for
    text inside the Basic Multilingual Plane that is one UTF-16 code unit. */
module Strings {
  import opened Wrappers

  // ---------------------------------------------------------------------------
  // trim
  // ---------------------------------------------------------------------------

  /** The code units `String.prototype.trim` strips: ECMAScript WhiteSpace
      (tab, vertical tab, form feed, space, no-break space, byte-order mark and the
      Unicode space separators) and LineTerminator (LF, CR, LS, PS). */
  predicate IsWhitespace(c: char) {
    || c == '\t' || c == '\n' || c == '\U{B}' || c == '\U{C}' || c == '\r'
    || c == ' ' || c == '\U{A0}' || c == '\U{1680}'
    || ('\U{2000}' <= c <= '\U{200A}')
    || c == '\U{2028}' || c == '\U{2029}' || c == '\U{202F}' || c == '\U{205F}'
    || c == '\U{3000}' || c == '\U{FEFF}'
  }

  /** A string made of whitespace only (the empty string included). */
  ghost predicate Blank(s: string) {
    forall i :: 0 <= i < |s| ==> IsWhitespace(s[i])
  }

  /** Drops leading whitespace; the result is a suffix of `s`. */
  function TrimStart(s: string): (r: string)
    ensures |r| <= |s| && r == s[|s| - |r|..]
    ensures Blank(s[..|s| - |r|])
    ensures r == [] || !IsWhitespace(r[0])
  {
    if |s| > 0 && IsWhitespace(s[0]) then
      var r := TrimStart(s[1..]);
      assert s[1..][..|s| - 1 - |r|] == s[1..|s| - |r|];
      assert s[..|s| - |r|] == [s[0]] + s[1..|s| - |r|];
      r
    else
      s
  }

  /** Drops trailing whitespace; the result is a prefix of `s`. */
  function TrimEnd(s: string): (r: string)
    ensures |r| <= |s| && r == s[..|r|]
    ensures Blank(s[|r|..])
    ensures r == [] || !IsWhitespace(r[|r| - 1])
  {
    if |s| > 0 && IsWhitespace(s[|s| - 1]) then
      var r := TrimEnd(s[..|s| - 1]);
      assert s[..|s| - 1][|r|..] == s[|r|..|s| - 1];
      assert s[|r|..] == s[|r|..|s| - 1] + [s[|s| - 1]];
      r
    else
      s
  }

  /** JavaScript `s.trim()`. */
  function Trim(s: string): (r: string)
    ensures r == [] || (!IsWhitespace(r[0]) && !IsWhitespace(r[|r| - 1]))
  {
    TrimEnd(TrimStart(s))
  }

  /** `s.trim()` is falsy exactly when `s` consists of whitespace only. */
  lemma TrimEmptyIffBlank(s: string)
    ensures Trim(s) == [] <==> Blank(s)
  {
    var t := TrimStart(s);
    var u := TrimEnd(t);
    if u == [] {
      assert t[|u|..] == t;
      assert Blank(t);
      assert t == [];
      assert s[..|s| - |t|] == s;
    } else {
      assert u == t[..|u|];
      var k := |s| - |t|;
      assert !IsWhitespace(t[0]);
      assert s[k] == t[0];
    }
  }

  // ---------------------------------------------------------------------------
  // prefixes and splitting
  // ---------------------------------------------------------------------------

  /** JavaScript `s.startsWith(p)`: exact, case-sensitive prefix test. */
  predicate StartsWith(s: string, p: string) {
    |p| <= |s| && s[..|p|] == p
  }

  /** Index of the first occurrence of `c` in `s`, if any (`indexOf`). */
  function IndexOf(s: string, c: char): (r: Option<nat>)
    ensures r.None? <==> c !in s
    ensures r.Some? ==> r.value < |s| && s[r.value] == c && c !in s[..r.value]
  {
    if |s| == 0 then None
    else if s[0] == c then Some(0)
    else
      match IndexOf(s[1..], c)
      case None => None
      case Some(i) =>
        assert s[..i + 1] == [s[0]] + s[1..][..i];
        Some(i + 1)
  }

  /** The longest prefix of `s` that does not contain `c`. */
  function TakeUntil(s: string, c: char): (r: string)
    ensures StartsWith(s, r) && c !in r
    ensures |r| == |s| || s[|r|] == c
  {
    match IndexOf(s, c)
    case None => s
    case Some(i) => s[..i]
  }

  /** JavaScript `s.split(sep)[1]` for a one-character separator: the piece
      between the first and the second separator, or `undefined` (None) when
      `s` holds no separator at all. */
  function SecondField(s: string, sep: char): (r: Option<string>)
    ensures r.None? <==> sep !in s
    ensures r.Some? ==> sep !in r.value
  {
    match IndexOf(s, sep)
    case None => None
    case Some(i) => Some(TakeUntil(s[i + 1..], sep))
  }

  /** Splitting a joined pair recovers its second half. */
  lemma {:induction false} SecondFieldOfJoin(a: string, sep: char, b: string)
    requires sep !in a && sep !in b
    ensures SecondField(a + [sep] + b, sep) == Some(b)
  {
    var s := a + [sep] + b;
    IndexOfJoin(a, sep, b);
    assert s[|a| + 1..] == b;
    assert IndexOf(b, sep).None?;
  }

  lemma {:induction false} IndexOfJoin(a: string, sep: char, b: string)
    requires sep !in a
    ensures IndexOf(a + [sep] + b, sep) == Some(|a|)
  {
    var s := a + [sep] + b;
    assert s[|a|] == sep;
    assert forall i :: 0 <= i < |a| ==> s[i] == a[i];
  }

  // ---------------------------------------------------------------------------
  // upper case
  // ---------------------------------------------------------------------------

  predicate IsAsciiLower(c: char) {
    'a' <= c <= 'z'
  }

  function UpperChar(c: char): (r: char)
    ensures !IsAsciiLower(r)
  {
    if IsAsciiLower(c) then (c as int - 32) as char else c
  }

  /** `s.toUpperCase()` restricted to the ASCII letters. */
  function ToUpper(s: string): (r: string)
    ensures |r| == |s|
    ensures forall i :: 0 <= i < |s| ==> r[i] == UpperChar(s[i])
  {
    seq(|s|, i requires 0 <= i < |s| => UpperChar(s[i]))
  }

  // ---------------------------------------------------------------------------
  // decimal rendering of integers
  // ---------------------------------------------------------------------------

  predicate IsDigit(c: char) {
    '0' <= c <= '9'
  }

  function DigitChar(d: nat): (c: char)
    requires d < 10
    ensures IsDigit(c) && c as int - '0' as int == d
  {
    ('0' as int + d) as char
  }

  function DigitValue(c: char): (d: nat)
    requires IsDigit(c)
    ensures d < 10 && DigitChar(d) == c
  {
    c as int - '0' as int
  }

  predicate AllDigits(s: string) {
    forall i :: 0 <= i < |s| ==> IsDigit(s[i])
  }

  /** JavaScript `String(n)` for a non-negative integer below 10^21: its decimal
      digits with no leading zero. */
  function Decimal(n: nat): (r: string)
    ensures |r| >= 1 && AllDigits(r)
    ensures r[0] != '0' || n == 0
    ensures n < 10 <==> |r| == 1
  {
    if n < 10 then [DigitChar(n)] else Decimal(n / 10) + [DigitChar(n % 10)]
  }

  /** Reads a string of decimal digits back as a number. */
  function ParseDecimal(s: string): nat
    requires AllDigits(s)
  {
    if |s| == 0 then 0 else ParseDecimal(s[..|s| - 1]) * 10 + DigitValue(s[|s| - 1])
  }

  /** The rendering is read back exactly: `Decimal` loses nothing. */
  lemma {:induction false} ParseDecimalOfDecimal(n: nat)
    ensures ParseDecimal(Decimal(n)) == n
  {
    var r := Decimal(n);
    if n >= 10 {
      assert r[..|r| - 1] == Decimal(n / 10);
      ParseDecimalOfDecimal(n / 10);
    }
  }
}

=== FILE: wrappers.dfy ===
/** Optional values, standing in for JavaScript's `null` / `undefined`. */
module Wrappers {

  datatype Option<+T> = None | Some(value: T) {

    /** Returns the value held in Some, or `default` for None. */
    function GetOr(default: T): T {
      match this
      case Some(v) => v
      case None => default
    }
  }

  /** JavaScript truthiness of a value that is either a string or absent:
      `undefined`, `null` and the empty string are all falsy. */
  predicate Truthy(o: Option<string>) {
    o.Some? && o.value != ""
  }

  /** JavaScript `a || b` where `a` is an optional string and `b` a string. */
  function OrElse(a: Option<string>, b: string): (r: string)
    ensures Truthy(a) ==> r == a.value
    ensures !Truthy(a) ==> r == b
  {
    if Truthy(a) then a.value else b
  }
}
